=== FILE: README.md ===
# Restaurant site page script: a verified model

This project models the three pieces of sequential logic in the restaurant website's page script
`script.js`. The DOM calls are left out; what they display is kept as plain values or fields.

- **The contact form** (`contact_form.dfy`, module `ContactForm`):
  - `validarNombre`: the name is required after trimming.
  - `validarEmail`: the address is required after trimming, then must match
    `^[^\s@]+@[^\s@]+\.[^\s@]+$`.
  - `validarMensaje`: the message is required after trimming, and may have at most 500 trimmed
    characters.
  - `actualizarContador`: the counter shows `"<n> / 500"` in one of three colours.
  - The submit gate runs all three validators before it decides whether to send.
  - The form's displayed state (values, per-field marks, counter) is a value. Loading, leaving a
    field, typing and submitting are functions on it.
- **The slider** (`gallery.dfy`, module `Gallery`): class `Slider` keeps the slides as an array of
  `SlideView`s and the cyclic index `idx`. It also keeps the autoplay interval handle and the
  intervals the browser still has live. `show`, `next`, `prev`, `startAutoplay` and `stopAutoplay`
  are its methods. The index arithmetic has pure partners (`NextIndex`, `PrevIndex`, `Walk`).
- **The dark-mode button** (`theme.dfy`, module `Theme`): class `ThemeToggle` holds the mode, the
  browser storage (a `map<string, string>`), the button label and `aria-pressed`. Its start-up and
  click are specified by the pure functions `Loaded` and `Clicked`.
- **JavaScript string semantics** (`text.dfy`, module `Text`):
  - the whitespace class shared by `trim` and `\s` (ECMAScript WhiteSpace and LineTerminator);
  - `trim` itself;
  - the decimal rendering that a template literal gives a length.

## Model

| member | source | states |
|---|---|---|
| `Text.IsSpace` | script.js:149-160 | the whitespace class of `trim` and `\s` contains neither '@', '.' nor a digit, and every member is a single UTF-16 code unit |
| `Text.Trim` | script.js:149 | `trim` yields the slice of the input between a whitespace-only prefix and suffix; the slice neither starts nor ends with whitespace, and it is empty exactly when the input is all whitespace |
| `Text.TrimIdempotent` | script.js:153 | trimming a trimmed value changes nothing |
| `Text.DecimalString` | script.js:162-168 | the numeral a template literal writes for a count (`${n}` in the counter, `${MAX_LEN}` in the length notice): at least one digit, digits only, and no leading zero except the numeral "0" itself |
| `Text.DecimalRoundTrip` | script.js:168 | the numeral a template literal writes for a count reads back as that count |
| `Text.DecimalStringInjective` | script.js:168 | different counts are written as different numerals |
| `ContactForm.ValidateName` | script.js:148-151 | the name is accepted exactly when it is not all whitespace; otherwise the error is "El nombre es obligatorio" |
| `ContactForm.MatchesEmailPattern` | script.js:154 | the meaning of `^[^\s@]+@[^\s@]+\.[^\s@]+$`: a run of non-whitespace, non-'@' characters, an '@', another run, a '.', a third run; any match has at least five characters, contains '@' and '.', and does not start with '@' |
| `ContactForm.EmailShapeIsPattern` | script.js:154-156 | the direct check `EmailShape`, which `ValidateEmail` evaluates in place of `re.test(v)` (no whitespace, one '@' with text before it, a '.' after it that is neither the first nor the last character) accepts exactly what the regular expression matches, in both directions |
| `ContactForm.ValidateEmail` | script.js:152-158 | an all-whitespace value fails first with "El correo es obligatorio"; otherwise the value is accepted exactly when the trimmed text matches the pattern, and fails with "Formato de correo no válido" when it does not |
| `ContactForm.ValidateMessage` | script.js:159-164 | an all-whitespace value fails first with "El mensaje no puede estar vacío"; otherwise it is accepted exactly when the trimmed length is at most 500, and fails with "Máximo 500 caracteres" when longer |
| `ContactForm.CounterColour` | script.js:169 | red (`#b00020`) exactly above 500, amber (`#ff9800`) exactly for 451 to 500, grey (`#666`) exactly up to 450 |
| `ContactForm.CounterText` | script.js:168 | the text is the count's numeral followed by " / 500", and the numeral reads back as the count |
| `ContactForm.CounterFor` | script.js:166-170 | the counter counts the raw, untrimmed message: its numeral reads back as the raw length, and it is red exactly past 500, amber exactly for 451 to 500 and grey exactly up to 450 characters |
| `ContactForm.CounterWithinLimitNoLengthError` | script.js:159-170 | while the counter (raw length) is not red, the message is never refused as too long |
| `ContactForm.RedCounterAcceptedMessage` | script.js:160-167 | one character followed by 500 or more whitespace characters turns the counter red, yet the message is accepted: the counter uses the raw length, the validator the trimmed length |
| `ContactForm.Load` | script.js:173-177 | at start-up the form holds the initial name, address and message, the counter describes the initial message and no field carries a mark (assuming the markup marks none) |
| `ContactForm.Blur` | script.js:173-176 | leaving a field marks that field with its validator's verdict; no value, other mark or the counter changes |
| `ContactForm.Type` | script.js:175 | typing updates the message and its counter; the message is validated again only when it is marked invalid, and every other mark is kept |
| `ContactForm.Submit` | script.js:179-185 | all three fields are marked with their verdicts (no short-circuit); sending proceeds exactly when all three are valid; otherwise the outcome is the notice "Corrige los errores antes de enviar" and the values stay as they were |
| `ContactForm.SubmitSendsExactly` | script.js:148-185 | a form is sent exactly when the name is not all whitespace, the trimmed address matches the pattern, and the trimmed message has 1 to 500 characters |
| `ContactForm.CoherentPreserved` | script.js:166-185 | loading, leaving a field, typing and submitting keep the counter on the current message, and an error shown under the message is the verdict on the current text |
| `ContactForm.ValidMarkCanGoStale` | script.js:175 | a valid mark on the message survives emptying the box, because typing re-validates only an invalid field |
| `Gallery.Shown` | script.js:73-81 | after `show(i)`, slide `i` alone is active, has opacity "1" and `aria-hidden` "false"; every other slide is inactive, has opacity "0" and `aria-hidden` "true"; every slide gets the transition |
| `Gallery.ShownActiveSet` | script.js:73-81 | after `show(i)` for a slide index `i`, the set of active slides is exactly `{i}` |
| `Gallery.NextIndex` | script.js:83 | `next` stays in `[0, n)`: it moves one slide forward and wraps from the last slide to the first |
| `Gallery.PrevIndex` | script.js:84 | `prev` stays in `[0, n)`: it moves one slide back and wraps from the first slide to the last |
| `Gallery.NextPrevInverse` | script.js:83-84 | `next` then `prev` restores the index, and so does `prev` then `next` |
| `Gallery.Walk` | script.js:83-93 | any sequence of `next`/`prev` steps keeps the index in `[0, n)` |
| `Gallery.WalkForwards` | script.js:83 | `k` consecutive `next` steps advance the index by `k` modulo `n` |
| `Gallery.FullCycle` | script.js:83 | `n` consecutive `next` steps over `n` slides return to the starting slide |
| `Gallery.Slider.constructor` | script.js:64-113 | start-up with at least one slide (set up at lines 64-72, then `show(idx)` and `startAutoplay()` at lines 112-113): the index is 0, slide 0 alone is shown, and exactly one autoplay interval is live |
| `Gallery.Slider.Show` | script.js:73-81 | every slide is rewritten to the state `Shown` describes for `i`; nothing but the slides changes |
| `Gallery.Slider.Next` | script.js:83 | the index becomes `NextIndex` of the old index, that slide alone is shown, and the autoplay state is unchanged |
| `Gallery.Slider.Prev` | script.js:84 | the index becomes `PrevIndex` of the old index, that slide alone is shown, and the autoplay state is unchanged |
| `Gallery.Slider.StartAutoplay` | script.js:96 | any running interval is cleared before a fresh one is created, so exactly one interval, the new one, is live afterwards |
| `Gallery.Slider.StopAutoplay` | script.js:97 | the running interval, if any, is cleared and the handle reset to null, so no interval is live |
| `Gallery.Slider.Tick` | script.js:96 | a firing interval calls `next` only while it is live; a cleared interval changes nothing |
| `Gallery.Slider.Key` | script.js:90-93 | ArrowRight steps forward, ArrowLeft steps back, and any other key leaves the index alone |
| `Gallery.Mount` | script.js:64-65 | a page without slides gets no slider; otherwise the slider starts at index 0 with one live interval |
| `Theme.StoredFlag` | script.js:51 | the stored text is "1" exactly for dark and "0" exactly for light |
| `Theme.StoredDark` | script.js:44 | start-up reads dark exactly when the stored `modoOscuro` is the flag a click stores for dark; a missing entry or the light flag means light |
| `Theme.PressedAttr` | script.js:52 | `aria-pressed` is "true" exactly for dark and "false" exactly for light |
| `Theme.LabelFor` | script.js:53 | the label is "Modo claro" exactly when the mode is dark and "Modo oscuro" exactly when it is light |
| `Theme.Loaded` | script.js:44-47 | the page starts dark exactly when the stored `modoOscuro` is "1"; only then, and only if the button exists, are its label and `aria-pressed` set; storage is only read |
| `Theme.Clicked` | script.js:49-54 | a click flips the mode and stores its flag under `modoOscuro` without touching other keys; `aria-pressed` and the label follow the new mode |
| `Theme.ClickedConsistent` | script.js:49-54 | after any click, the stored flag, the label and `aria-pressed` agree with the mode |
| `Theme.ReloadKeepsMode` | script.js:44 | a page load after a click starts in the mode that click chose |
| `Theme.ClickTwice` | script.js:49-54 | two clicks restore the mode; from any state reached by a click, they also restore the storage, the label and `aria-pressed` |
| `Theme.ThemeToggle.constructor` | script.js:42-47 | the object's start-up state is `Loaded` of the storage and the button's markup |
| `Theme.ThemeToggle.Click` | script.js:49-54 | the object's new state is `Clicked` of its old state |

## Left out

- The welcome prompt, the footer date and the hover background colours: these are user
  interaction, the clock and the locale, and styling, with nothing to verify.
- All DOM and style writes: class lists, `style.*`, `textContent`, error elements and icons. Only
  the state they display is modelled: marks, counter text and colour, slide views, label,
  `aria-pressed`.
- `showMessage` and `showAnimatedConfirmation`: presentation only. A refusal is modelled as the
  notice text.
- The simulated send: the 900 ms timeout that resets the form and restores the submit button, and
  the disabling of the button. `Submit` ends at the decision to send. That callback also restores
  the button from `original`, which is a `const` declared inside the `if` block above it. It is
  out of scope at that point, so the restore would throw. It is not modelled for this reason.
- Timers: `setInterval` and `clearInterval` become a counter of handles and a set of live
  intervals inside `Slider`. The 5000 ms period and time itself are not modelled; `Slider.Tick` is
  one firing of an interval.
- Event wiring: the button, mouse and touch listeners are left out. The operations they trigger
  (`Next`, `Prev`, `StartAutoplay`, `StopAutoplay`, `Key`, `Blur`, `Type`, `Submit`, `Click`) are
  modelled.
- JavaScript strings are sequences of UTF-16 code units. The model's strings are sequences of
  Unicode scalar values. A character outside the Basic Multilingual Plane therefore counts once
  here, but twice in `mensaje.value.length` and in the 500-character check.
- `Theme.Loaded`: assumes the page's markup does not already give the body the dark-mode class.
  Such markup would make the page dark whatever is stored.
- Real `localStorage` I/O, including quota errors and storage shared between tabs: storage is a map
  held by `ThemeToggle`.
- `ContactForm.Load`: assumes the page's markup gives no field the `valid` or `invalid` class.
  With an `invalid` message box in the markup, the `input` listener would re-validate from the
  first keystroke. A page without the contact form (`if (!form) return`, script.js:123) is not
  modelled either; the form model starts once the form exists. It also assumes the elements
  `#nombre`, `#email`, `#mensaje` and `#char-count` exist, which the script never checks:
  - without a field element, attaching its listener at script.js:173-176 throws, so no listener
    is attached and nothing after it runs;
  - without `#char-count`, the first `actualizarContador()` (script.js:177) throws at
    script.js:168, before the submit listener (script.js:179) is attached, so the gate `Submit`
    models never runs and the browser submits the form itself;
  - for the same reason every `input` event would throw in `actualizarContador()` before the
    re-validation that `Type` models.

=== FILE: contact_form.dfy ===
/**
 * The contact form: three field validators with fixed notices and a fixed order of checks, the
 * character counter under the message box, and the submit gate that runs every validator before
 * deciding whether the message is sent. What the page shows (error texts, valid/invalid marks,
 * the counter) is kept as a value; the DOM writes that display it are not modelled.
 */
module ContactForm {
  import opened Text

  /** `MAX_LEN`: the longest message accepted, in characters. */
  const MaxLen: nat := 500

  const NameRequired := "El nombre es obligatorio"
  const EmailRequired := "El correo es obligatorio"
  const EmailMalformed := "Formato de correo no válido"
  const MessageRequired := "El mensaje no puede estar vacío"
  const MessageTooLong := "Máximo " + DecimalString(MaxLen) + " caracteres"
  /** The notice shown when a submission is refused. */
  const FixErrorsNotice := "Corrige los errores antes de enviar"

  /** What a validator decides: the field is accepted, or refused with the error shown under it. */
  datatype Verdict = Valid | Invalid(message: string)

  // ---------------------------------------------------------------------------------------------
  // Name

  /** `validarNombre`: the name is required once surrounding whitespace is trimmed. */
  function ValidateName(value: string): (v: Verdict)
    ensures v.Valid? <==> !AllSpace(value)
    ensures v.Invalid? ==> v.message == NameRequired
  {
    if Trim(value) == [] then Invalid(NameRequired) else Valid
  }

  // ---------------------------------------------------------------------------------------------
  // E-mail

  /** A character of the class `[^\s@]`. */
  predicate PlainChar(c: char) {
    !IsSpace(c) && c != '@'
  }

  predicate Plain(s: string) {
    forall k :: 0 <= k < |s| ==> PlainChar(s[k])
  }

  /**
   * The pattern `^[^\s@]+@[^\s@]+\.[^\s@]+$` matches `v`: `v` splits as a, '@', b, '.', c with a,
   * b and c non-empty runs of `[^\s@]` (the '.' is any one the backtracking matcher may choose).
   * The shortest such address has five characters, as in "a@b.c".
   */
  ghost function MatchesEmailPattern(v: string): (b: bool)
    ensures b ==> |v| >= 5 && '@' in v && '.' in v && v[0] != '@'
  {
    exists i, j :: 0 < i && i + 1 < j && j + 1 < |v| && v[i] == '@' && v[j] == '.'
      && Plain(v[..i]) && Plain(v[i + 1..j]) && Plain(v[j + 1..])
  }

  /** The index of the first `c` in `v` at or after `i`, or `|v|` when there is none. */
  function IndexOf(v: string, c: char, i: nat): (k: nat)
    requires i <= |v|
    ensures i <= k <= |v|
    ensures forall m :: i <= m < k ==> v[m] != c
    ensures k < |v| ==> v[k] == c
    decreases |v| - i
  {
    if i == |v| || v[i] == c then i else IndexOf(v, c, i + 1)
  }

  /**
   * The shape the pattern accepts, read directly: no whitespace anywhere, exactly one '@', with
   * something before it, and a '.' after it that is neither the first nor the last character
   * following the '@'.
   */
  predicate EmailShape(v: string) {
    var k := IndexOf(v, '@', 0);
    && (forall m :: 0 <= m < |v| ==> !IsSpace(v[m]))
    && 0 < k < |v|
    && (forall m :: k < m < |v| ==> v[m] != '@')
    && (exists p :: k + 1 < p < |v| - 1 && v[p] == '.')
  }

  /** The direct reading of the shape accepts exactly what the regular expression matches. */
  lemma EmailShapeIsPattern(v: string)
    ensures EmailShape(v) <==> MatchesEmailPattern(v)
  {
    if EmailShape(v) {
      var i := IndexOf(v, '@', 0);
      var j :| i + 1 < j < |v| - 1 && v[j] == '.';
      PlainSlice(v, 0, i);
      PlainSlice(v, i + 1, j);
      PlainSlice(v, j + 1, |v|);
    }
    if MatchesEmailPattern(v) {
      var i, j :| 0 < i && i + 1 < j && j + 1 < |v| && v[i] == '@' && v[j] == '.'
        && Plain(v[..i]) && Plain(v[i + 1..j]) && Plain(v[j + 1..]);
      forall m | 0 <= m < |v| ensures PlainChar(v[m]) || m == i || m == j {
        if m < i { assert v[m] == v[..i][m]; }
        else if i < m < j { assert v[m] == v[i + 1..j][m - i - 1]; }
        else if j < m { assert v[m] == v[j + 1..][m - j - 1]; }
      }
      var k := IndexOf(v, '@', 0);
      assert k == i;
    }
  }

  lemma PlainSlice(v: string, lo: nat, hi: nat)
    requires lo <= hi <= |v|
    requires forall m :: lo <= m < hi ==> PlainChar(v[m])
    ensures Plain(v[lo..hi])
  {
    forall k | 0 <= k < hi - lo ensures PlainChar(v[lo..hi][k]) {
      assert v[lo..hi][k] == v[lo + k];
    }
  }

  /**
   * `validarEmail`: the trimmed address is required first, then must match the pattern; each
   * failure has its own notice.
   */
  function ValidateEmail(value: string): (v: Verdict)
    ensures v.Valid? <==> MatchesEmailPattern(Trim(value))
    ensures AllSpace(value) ==> v == Invalid(EmailRequired)
    ensures !AllSpace(value) && v.Invalid? ==> v == Invalid(EmailMalformed)
  {
    var t := Trim(value);
    EmailShapeIsPattern(t);
    if t == [] then Invalid(EmailRequired)
    else if !EmailShape(t) then Invalid(EmailMalformed)
    else Valid
  }

  // ---------------------------------------------------------------------------------------------
  // Message

  /**
   * `validarMensaje`: the trimmed message is required first, then may not be longer than
   * `MaxLen`; the length that counts is that of the trimmed text.
   */
  function ValidateMessage(value: string): (v: Verdict)
    ensures v.Valid? <==> 0 < |Trim(value)| <= MaxLen
    ensures AllSpace(value) ==> v == Invalid(MessageRequired)
    ensures !AllSpace(value) && v.Invalid? ==> v == Invalid(MessageTooLong)
  {
    var t := Trim(value);
    if t == [] then Invalid(MessageRequired)
    else if |t| > MaxLen then Invalid(MessageTooLong)
    else Valid
  }

  // ---------------------------------------------------------------------------------------------
  // Character counter

  const CounterRed := "#b00020"
  const CounterAmber := "#ff9800"
  const CounterGrey := "#666"

  /** What `actualizarContador` displays: a text and a colour. */
  datatype Counter = Counter(text: string, colour: string)

  /**
   * The counter colour for a raw length `n`: red past the limit, amber above nine tenths of it
   * (`MAX_LEN * 0.9` is exactly 450, so comparing the integer `n` with it is exact), grey below.
   */
  function CounterColour(n: nat): (c: string)
    ensures c == CounterRed <==> n > MaxLen
    ensures c == CounterAmber <==> 450 < n <= MaxLen
    ensures c == CounterGrey <==> n <= 450
  {
    if n > MaxLen then CounterRed else if n > MaxLen * 9 / 10 then CounterAmber else CounterGrey
  }

  /** The counter text `"<n> / 500"`: the numeral before the separator reads back as `n`. */
  function CounterText(n: nat): (t: string)
    ensures t == DecimalString(n) + " / 500"
    ensures DecimalValue(t[..|t| - 6]) == n
  {
    var d := DecimalString(n);
    DecimalRoundTrip(n);
    assert (d + " / " + DecimalString(MaxLen))[..|d|] == d;
    d + " / " + DecimalString(MaxLen)
  }

  /**
   * `actualizarContador`: counts the raw, untrimmed message; the text reads back as its length and
   * the colour turns red exactly when that length passes the limit.
   */
  function CounterFor(message: string): (c: Counter)
    ensures c.text == DecimalString(|message|) + " / 500"
    ensures DecimalValue(c.text[..|c.text| - 6]) == |message|
    ensures c.colour == CounterRed <==> |message| > MaxLen
    ensures c.colour == CounterAmber <==> 450 < |message| <= MaxLen
    ensures c.colour == CounterGrey <==> |message| <= 450
  {
    Counter(CounterText(|message|), CounterColour(|message|))
  }

  /** While the counter is not red, the message is never refused for its length. */
  lemma CounterWithinLimitNoLengthError(message: string)
    requires CounterFor(message).colour != CounterRed
    ensures ValidateMessage(message) != Invalid(MessageTooLong)
  {
    assert MessageTooLong != MessageRequired by {
      assert MessageTooLong[0] != MessageRequired[0];
    }
  }

  /**
   * The counter and the validator can disagree: one character followed by at least 500 whitespace
   * characters turns the counter red, yet the message is accepted, because the validator trims.
   */
  lemma RedCounterAcceptedMessage(padding: string)
    requires AllSpace(padding) && |padding| >= MaxLen
    ensures CounterFor("a" + padding).colour == CounterRed
    ensures ValidateMessage("a" + padding) == Valid
  {
    var s := "a" + padding;
    var r := Trim(s);
    assert !AllSpace(s) by { assert !IsSpace(s[0]); }
    var a :| 0 <= a <= |s| - |r| && r == s[a..a + |r|] && AllSpace(s[..a]) && AllSpace(s[a + |r|..]);
    assert a == 0;
    assert |r| == 1;
  }

  // ---------------------------------------------------------------------------------------------
  // The form as displayed

  datatype Field = Name | Email | Message

  /** A field's display state: untouched, or marked with the last verdict computed for it. */
  datatype Mark = Unmarked | Marked(verdict: Verdict)

  /** The three field values, their marks and the counter. */
  datatype Form = Form(name: string, email: string, message: string,
                       nameMark: Mark, emailMark: Mark, messageMark: Mark, counter: Counter)
  {
    function Value(f: Field): string {
      match f
      case Name => name
      case Email => email
      case Message => message
    }

    function MarkOf(f: Field): Mark {
      match f
      case Name => nameMark
      case Email => emailMark
      case Message => messageMark
    }
  }

  /** The validator attached to each field. */
  function Check(f: Field, value: string): Verdict {
    match f
    case Name => ValidateName(value)
    case Email => ValidateEmail(value)
    case Message => ValidateMessage(value)
  }

  /** The form as the page sets it up: nothing marked, the counter computed once. */
  function Load(name: string, email: string, message: string): (form: Form)
    ensures form.name == name && form.email == email && form.message == message
    ensures form.counter == CounterFor(message)
    ensures forall f :: form.MarkOf(f) == Unmarked
  {
    Form(name, email, message, Unmarked, Unmarked, Unmarked, CounterFor(message))
  }

  /** Leaving a field (`blur`) validates that field alone. */
  function Blur(form: Form, f: Field): (after: Form)
    ensures after.MarkOf(f) == Marked(Check(f, form.Value(f)))
    ensures forall g :: g != f ==> after.MarkOf(g) == form.MarkOf(g)
    ensures forall g :: after.Value(g) == form.Value(g)
    ensures after.counter == form.counter
  {
    var mark := Marked(Check(f, form.Value(f)));
    match f
    case Name => form.(nameMark := mark)
    case Email => form.(emailMark := mark)
    case Message => form.(messageMark := mark)
  }

  /**
   * Typing in the message box (`input`): the counter follows the new text, and the message is
   * validated again only when it is currently marked invalid.
   */
  function Type(form: Form, message: string): (after: Form)
    ensures after.message == message && after.counter == CounterFor(message)
    ensures form.messageMark.Marked? && form.messageMark.verdict.Invalid? ==>
      after.messageMark == Marked(ValidateMessage(message))
    ensures !(form.messageMark.Marked? && form.messageMark.verdict.Invalid?) ==>
      after.messageMark == form.messageMark
    ensures after.name == form.name && after.email == form.email
    ensures after.nameMark == form.nameMark && after.emailMark == form.emailMark
  {
    var typed := form.(message := message, counter := CounterFor(message));
    if form.messageMark.Marked? && form.messageMark.verdict.Invalid? then
      typed.(messageMark := Marked(ValidateMessage(message)))
    else
      typed
  }

  /** What a submission leads to: refused with a notice, or handed over for sending. */
  datatype Outcome = Refused(notice: string) | Sending

  datatype Submission = Submission(form: Form, outcome: Outcome)

  /**
   * The submit handler's gate: all three validators run (the `&` does not short-circuit), so every
   * field is marked exactly as leaving it would mark it; the message is sent only when all three
   * accept, and a refusal leaves the values in place.
   */
  function Submit(form: Form): (s: Submission)
    ensures forall f :: s.form.MarkOf(f) == Marked(Check(f, form.Value(f)))
    ensures forall f :: s.form.Value(f) == form.Value(f)
    ensures s.form.counter == form.counter
    ensures s.outcome == Sending <==> forall f :: Check(f, form.Value(f)).Valid?
    ensures s.outcome != Sending ==> s.outcome == Refused(FixErrorsNotice)
  {
    var marked := Blur(Blur(Blur(form, Name), Email), Message);
    if forall f :: marked.MarkOf(f) == Marked(Valid) then Submission(marked, Sending)
    else Submission(marked, Refused(FixErrorsNotice))
  }

  /** A form is sent exactly when the name, the address and the message all meet their rules. */
  lemma SubmitSendsExactly(form: Form)
    ensures Submit(form).outcome == Sending <==>
      && !AllSpace(form.name)
      && MatchesEmailPattern(Trim(form.email))
      && 0 < |Trim(form.message)| <= MaxLen
  {
    assert form.Value(Name) == form.name && form.Value(Email) == form.email && form.Value(Message) == form.message;
  }

  /**
   * What the page keeps true of its form: the counter describes the current message, and an
   * error shown under the message is the verdict on the current message.
   */
  predicate Coherent(form: Form) {
    && form.counter == CounterFor(form.message)
    && (form.messageMark.Marked? && form.messageMark.verdict.Invalid? ==>
         form.messageMark.verdict == ValidateMessage(form.message))
  }

  /** Loading, leaving a field, typing and submitting all keep the form coherent. */
  lemma CoherentPreserved(form: Form, f: Field, message: string, name: string, email: string)
    requires Coherent(form)
    ensures Coherent(Load(name, email, message))
    ensures Coherent(Blur(form, f))
    ensures Coherent(Type(form, message))
    ensures Coherent(Submit(form).form)
  {
  }

  /**
   * A valid mark, unlike an error, can go stale while typing: a message marked valid stays marked
   * valid after the box is emptied, until it is left or the form is submitted.
   */
  lemma ValidMarkCanGoStale(form: Form)
    requires form.messageMark == Marked(Valid)
    ensures Type(form, "").messageMark == Marked(Valid)
    ensures ValidateMessage("") == Invalid(MessageRequired)
  {
  }
}

=== FILE: gallery.dfy ===
/**
 * The image slider: a cyclic index over the slides, steps forward and back, `show` making exactly
 * one slide visible, and an autoplay interval that is always cleared before another is created.
 * The browser's interval timers are modelled by the handles the slider holds and the set of
 * intervals still live; the styling and event wiring are not modelled.
 */
module Gallery {
  import opened Wrappers

  const Transition := "opacity .4s ease"

  /** The state `show` writes on one slide: class `active`, `style.opacity`, `aria-hidden`, `style.transition`. */
  datatype SlideView = SlideView(active: bool, opacity: string, ariaHidden: string, transition: string)

  function ViewFor(active: bool): SlideView {
    SlideView(active, if active then "1" else "0", if active then "false" else "true", Transition)
  }

  /**
   * What `show(i)` leaves on `n` slides: slide `i` alone is active, opaque and not hidden from
   * assistive technology; every other slide is inactive, transparent and hidden.
   */
  function Shown(n: nat, i: int): (views: seq<SlideView>)
    ensures |views| == n
    ensures forall j :: 0 <= j < n ==> (views[j].active <==> j == i)
    ensures forall j :: 0 <= j < n ==> views[j].opacity == (if j == i then "1" else "0")
    ensures forall j :: 0 <= j < n ==> views[j].ariaHidden == (if j == i then "false" else "true")
    ensures forall j :: 0 <= j < n ==> views[j].transition == Transition
  {
    var views := seq(n, j => ViewFor(j == i));
    assert forall j :: 0 <= j < n ==> views[j] == ViewFor(j == i);
    views
  }

  /** After `show(i)` with `i` a slide index, the active slides are exactly `{i}`. */
  lemma ShownActiveSet(n: nat, i: nat)
    requires i < n
    ensures (set j | 0 <= j < n && Shown(n, i)[j].active) == {i}
  {
    var views := Shown(n, i);
    assert views[i].active;
  }

  // ---------------------------------------------------------------------------------------------
  // The cyclic index

  /**
   * `next`: `(idx + 1) % slides.length`, one step forward, wrapping from the last slide to the
   * first. The operands are never negative, so JavaScript's `%` agrees with Dafny's.
   */
  function NextIndex(i: nat, n: nat): (r: nat)
    requires i < n
    ensures r < n
    ensures r == if i + 1 == n then 0 else i + 1
  {
    (i + 1) % n
  }

  /** `prev`: `(idx - 1 + slides.length) % slides.length`, one step back, wrapping from the first slide to the last. */
  function PrevIndex(i: nat, n: nat): (r: nat)
    requires i < n
    ensures r < n
    ensures r == if i == 0 then n - 1 else i - 1
  {
    (i - 1 + n) % n
  }

  /** A step forward undoes a step back, and the other way round. */
  lemma NextPrevInverse(i: nat, n: nat)
    requires i < n
    ensures PrevIndex(NextIndex(i, n), n) == i
    ensures NextIndex(PrevIndex(i, n), n) == i
  {
  }

  datatype Step = Forward | Backward

  /** The index reached from `i` by the steps `steps` (arrow buttons, arrow keys, autoplay ticks). */
  function Walk(i: nat, steps: seq<Step>, n: nat): (r: nat)
    requires i < n
    ensures r < n
    decreases |steps|
  {
    if steps == [] then i
    else
      var j := if steps[0] == Forward then NextIndex(i, n) else PrevIndex(i, n);
      Walk(j, steps[1..], n)
  }

  function Forwards(k: nat): (steps: seq<Step>)
    ensures |steps| == k && forall m :: 0 <= m < k ==> steps[m] == Forward
  {
    seq(k, _ => Forward)
  }

  lemma MulAtLeast(a: int, n: int)
    requires n > 0 && a >= 1
    ensures a * n >= n
  {
    assert a * n == (a - 1) * n + n;
  }

  /** Quotient and remainder are unique. */
  lemma DivModUnique(x: nat, n: nat, q: nat, r: nat)
    requires n > 0 && r < n && x == q * n + r
    ensures x % n == r && x / n == q
  {
    var q2, r2 := x / n, x % n;
    assert x == q2 * n + r2;
    if q2 > q {
      MulAtLeast(q2 - q, n);
    } else if q > q2 {
      MulAtLeast(q - q2, n);
    }
  }

  lemma ModShift(x: nat, n: nat)
    requires n > 0
    ensures (x + n) % n == x % n
  {
    var q, r := x / n, x % n;
    assert x + n == (q + 1) * n + r;
    DivModUnique(x + n, n, q + 1, r);
  }

  /** `k` steps forward move the index by `k` modulo the number of slides. */
  lemma {:induction false} WalkForwards(i: nat, k: nat, n: nat)
    requires i < n
    ensures Walk(i, Forwards(k), n) == (i + k) % n
    decreases k
  {
    if k > 0 {
      var j := NextIndex(i, n);
      assert Forwards(k)[1..] == Forwards(k - 1);
      WalkForwards(j, k - 1, n);
      if i + 1 == n {
        ModShift(k - 1, n);
        assert i + k == k - 1 + n;
      }
    }
  }

  /** `n` steps forward over `n` slides come back to the starting slide. */
  lemma FullCycle(i: nat, n: nat)
    requires i < n
    ensures Walk(i, Forwards(n), n) == i
  {
    WalkForwards(i, n, n);
    ModShift(i, n);
    DivModUnique(i, n, 0, i);
  }

  // ---------------------------------------------------------------------------------------------
  // The slider as the page runs it

  class Slider {
    const slides: array<SlideView>
    var idx: nat
    /** The handle of the autoplay interval, `null` when none is running. */
    var autoplayId: Option<nat>
    /** The intervals this slider created that the browser has not cleared. */
    var live: set<nat>
    /**
     * The handle the browser gives the next interval: it is positive and distinct from every live
     * handle, which is all a browser promises.
     */
    var nextHandle: nat

    ghost predicate Valid()
      reads this, slides
    {
      && 0 < slides.Length
      && idx < slides.Length
      && slides[..] == Shown(slides.Length, idx)
      && live == (if autoplayId.Some? then {autoplayId.value} else {})
      && 0 < nextHandle
      && (forall h :: h in live ==> 0 < h < nextHandle)
    }

    /**
     * The start-up on a page with at least one slide: index 0, `show(0)`, then `startAutoplay()`.
     * `initial` is what the slides looked like before.
     */
    constructor (initial: seq<SlideView>)
      requires |initial| > 0
      ensures Valid() && fresh(slides)
      ensures slides.Length == |initial| && idx == 0
      ensures autoplayId.Some? && live == {autoplayId.value}
    {
      slides := new SlideView[|initial|](j requires 0 <= j < |initial| => initial[j]);
      idx := 0;
      autoplayId := None;
      live := {};
      nextHandle := 1;
      new;
      Show(idx);
      StartAutoplay();
    }

    /** `show(i)`: every slide is rewritten; slide `i` alone ends up active. */
    method Show(i: int)
      modifies slides
      ensures slides[..] == Shown(slides.Length, i)
    {
      var j := 0;
      while j < slides.Length
        invariant 0 <= j <= slides.Length
        invariant forall k :: 0 <= k < j ==> slides[k] == ViewFor(k == i)
      {
        slides[j] := ViewFor(j == i);
        j := j + 1;
      }
    }

    method Next()
      requires Valid()
      modifies this, slides
      ensures Valid()
      ensures idx == NextIndex(old(idx), slides.Length)
      ensures autoplayId == old(autoplayId) && live == old(live) && nextHandle == old(nextHandle)
    {
      idx := (idx + 1) % slides.Length;
      Show(idx);
    }

    method Prev()
      requires Valid()
      modifies this, slides
      ensures Valid()
      ensures idx == PrevIndex(old(idx), slides.Length)
      ensures autoplayId == old(autoplayId) && live == old(live) && nextHandle == old(nextHandle)
    {
      idx := (idx - 1 + slides.Length) % slides.Length;
      Show(idx);
    }

    /**
     * `startAutoplay`: the running interval, if any, is cleared before a new one is created, so
     * exactly one interval is live afterwards, and it is a new one.
     */
    method StartAutoplay()
      requires Valid()
      modifies this
      ensures Valid()
      ensures autoplayId == Some(old(nextHandle)) && old(nextHandle) !in old(live)
      ensures live == {old(nextHandle)}
      ensures idx == old(idx)
    {
      if autoplayId.Some? {
        live := live - {autoplayId.value};
      }
      autoplayId := Some(nextHandle);
      live := live + {nextHandle};
      nextHandle := nextHandle + 1;
    }

    /** `stopAutoplay`: clears the running interval, if any, and forgets its handle. */
    method StopAutoplay()
      requires Valid()
      modifies this
      ensures Valid()
      ensures autoplayId == None && live == {}
      ensures idx == old(idx) && nextHandle == old(nextHandle)
    {
      if autoplayId.Some? {
        live := live - {autoplayId.value};
        autoplayId := None;
      }
    }

    /** The browser fires interval `h`: only a live interval calls `next`. */
    method Tick(h: nat)
      requires Valid()
      modifies this, slides
      ensures Valid()
      ensures idx == if h in old(live) then NextIndex(old(idx), slides.Length) else old(idx)
      ensures autoplayId == old(autoplayId) && live == old(live) && nextHandle == old(nextHandle)
    {
      if h in live {
        Next();
      }
    }

    /** The `keydown` listener: ArrowRight steps forward, ArrowLeft steps back, other keys do nothing. */
    method Key(key: string)
      requires Valid()
      modifies this, slides
      ensures Valid()
      ensures idx == if key == "ArrowRight" then NextIndex(old(idx), slides.Length)
                     else if key == "ArrowLeft" then PrevIndex(old(idx), slides.Length)
                     else old(idx)
      ensures autoplayId == old(autoplayId) && live == old(live) && nextHandle == old(nextHandle)
    {
      if key == "ArrowRight" {
        Next();
      }
      if key == "ArrowLeft" {
        Prev();
      }
    }
  }

  /** The slider's start-up: a page without slides gets no slider at all. */
  method Mount(initial: seq<SlideView>) returns (s: Slider?)
    ensures initial == [] <==> s == null
    ensures s != null ==> fresh(s) && s.Valid() && s.idx == 0 && |s.live| == 1
  {
    if |initial| == 0 {
      return null;
    }
    s := new Slider(initial);
  }
}

=== FILE: text.dfy ===
/**
 * The pieces of JavaScript's string semantics the page relies on: the whitespace class that both
 * `String.prototype.trim` and the regular-expression escape `\s` use, `trim` itself, and the
 * decimal rendering of a non-negative integer inside a template literal.
 */
module Text {

  /**
   * ECMAScript WhiteSpace and LineTerminator code points: exactly what `\s` matches and `trim`
   * strips. None of them is '@', '.' or a digit, and all lie in the Basic Multilingual Plane, so
   * each is one UTF-16 code unit.
   */
  function IsSpace(c: char): (b: bool)
    ensures b ==> c != '@' && c != '.' && !('0' <= c <= '9')
    ensures b ==> c as int < 0x10000
  {
    || c == '\t' || c == '\n' || c == '\U{B}' || c == '\U{C}' || c == '\r' || c == ' '
    || c == '\U{A0}' || c == '\U{1680}' || ('\U{2000}' <= c <= '\U{200A}')
    || c == '\U{2028}' || c == '\U{2029}' || c == '\U{202F}' || c == '\U{205F}'
    || c == '\U{3000}' || c == '\U{FEFF}'
  }

  predicate AllSpace(s: string) {
    forall k :: 0 <= k < |s| ==> IsSpace(s[k])
  }

  /** The index of the first non-whitespace character of `s` at or after `i` (or `|s|`). */
  function SkipSpace(s: string, i: nat): (a: nat)
    requires i <= |s|
    ensures i <= a <= |s|
    ensures forall k :: i <= k < a ==> IsSpace(s[k])
    ensures a < |s| ==> !IsSpace(s[a])
    decreases |s| - i
  {
    if i < |s| && IsSpace(s[i]) then SkipSpace(s, i + 1) else i
  }

  /** The end of `s[lo..e]` once the whitespace before `e` is dropped, but never before `lo`. */
  function SkipSpaceBack(s: string, lo: nat, e: nat): (b: nat)
    requires lo <= e <= |s|
    ensures lo <= b <= e
    ensures forall k :: b <= k < e ==> IsSpace(s[k])
    ensures b > lo ==> !IsSpace(s[b - 1])
    decreases e
  {
    if e > lo && IsSpace(s[e - 1]) then SkipSpaceBack(s, lo, e - 1) else e
  }

  /**
   * `s.trim()`: the slice of `s` left once the whitespace before the first and after the last
   * non-whitespace character is removed; it is empty exactly when `s` is all whitespace.
   */
  function Trim(s: string): (r: string)
    ensures |r| <= |s|
    ensures r == [] <==> AllSpace(s)
    ensures r != [] ==> !IsSpace(r[0]) && !IsSpace(r[|r| - 1])
    ensures exists a :: 0 <= a <= |s| - |r| && r == s[a..a + |r|] && AllSpace(s[..a]) && AllSpace(s[a + |r|..])
  {
    var a := SkipSpace(s, 0);
    var b := SkipSpaceBack(s, a, |s|);
    assert AllSpace(s[..a]) && AllSpace(s[b..]) by {
      assert forall k :: 0 <= k < a ==> s[..a][k] == s[k];
      assert forall k :: 0 <= k < |s| - b ==> s[b..][k] == s[b + k];
    }
    assert b == a ==> AllSpace(s);
    s[a..b]
  }

  /** Trimming twice is trimming once. */
  lemma TrimIdempotent(s: string)
    ensures Trim(Trim(s)) == Trim(s)
  {
    var r := Trim(s);
    if r != [] {
      assert SkipSpace(r, 0) == 0;
      assert SkipSpaceBack(r, 0, |r|) == |r|;
    }
  }

  // ---------------------------------------------------------------------------------------------
  // Decimal rendering of non-negative integers, as a template literal `${n}` produces it

  predicate IsDigit(c: char) {
    '0' <= c <= '9'
  }

  predicate AllDigits(s: string) {
    forall k :: 0 <= k < |s| ==> IsDigit(s[k])
  }

  function DigitChar(d: nat): (c: char)
    requires d < 10
    ensures IsDigit(c)
  {
    (48 + d) as char
  }

  function DigitValue(c: char): (d: nat)
    requires IsDigit(c)
    ensures d < 10
  {
    c as int - 48
  }

  /** The shortest decimal numeral of `n`: digits only, no leading zero unless `n` is zero. */
  function DecimalString(n: nat): (r: string)
    ensures |r| >= 1 && AllDigits(r)
    ensures r[0] == '0' ==> n == 0
    ensures r[0] == '0' ==> r == "0"
    decreases n
  {
    if n < 10 then [DigitChar(n)] else DecimalString(n / 10) + [DigitChar(n % 10)]
  }

  /** The value of a numeral of decimal digits (the empty numeral reads as zero). */
  function DecimalValue(s: string): nat
    requires AllDigits(s)
  {
    if s == [] then 0 else DecimalValue(s[..|s| - 1]) * 10 + DigitValue(s[|s| - 1])
  }

  /** Reading back a rendered numeral gives the number rendered. */
  lemma {:induction false} DecimalRoundTrip(n: nat)
    ensures DecimalValue(DecimalString(n)) == n
    decreases n
  {
    var r := DecimalString(n);
    if n < 10 {
      assert r[..0] == [];
    } else {
      DecimalRoundTrip(n / 10);
      assert r[..|r| - 1] == DecimalString(n / 10);
    }
  }

  /** Different numbers render differently, so a rendered count identifies the count. */
  lemma DecimalStringInjective(m: nat, n: nat)
    requires DecimalString(m) == DecimalString(n)
    ensures m == n
  {
    DecimalRoundTrip(m);
    DecimalRoundTrip(n);
  }
}

=== FILE: theme.dfy ===
/**
 * The light/dark mode button: one boolean (whether the page body carries the dark-mode class),
 * read at start-up from the stored `modoOscuro` entry, flipped by each click and written back,
 * with the button's label and `aria-pressed` attribute following it. Browser storage is modelled
 * as a map from keys to strings.
 */
module Theme {

  /** The storage key that remembers the mode across page loads. */
  const StorageKey := "modoOscuro"

  const DarkLabel := "Modo claro"
  const LightLabel := "Modo oscuro"

  /** What a click stores for the new mode: `'1'` for dark, `'0'` for light. */
  function StoredFlag(dark: bool): (s: string)
    ensures s == "1" <==> dark
    ensures s == "0" <==> !dark
  {
    if dark then "1" else "0"
  }

  /**
   * The start-up test: the stored entry is exactly `'1'`, the flag a click stores for dark; a
   * missing entry (a first visit), the flag stored for light, or any other text means light.
   */
  function StoredDark(store: map<string, string>): (dark: bool)
    ensures dark <==> StorageKey in store && store[StorageKey] == StoredFlag(true)
    ensures StorageKey !in store ==> !dark
    ensures StorageKey in store && store[StorageKey] == StoredFlag(false) ==> !dark
  {
    StorageKey in store && store[StorageKey] == "1"
  }

  /** `String(activo)`, the value of `aria-pressed`. */
  function PressedAttr(dark: bool): (s: string)
    ensures s == "true" <==> dark
    ensures s == "false" <==> !dark
  {
    if dark then "true" else "false"
  }

  /** The button offers the other mode: "Modo claro" while dark, "Modo oscuro" while light. */
  function LabelFor(dark: bool): (s: string)
    ensures s == DarkLabel <==> dark
    ensures s == LightLabel <==> !dark
  {
    if dark then DarkLabel else LightLabel
  }

  /** The mode, the storage, and the button's label and `aria-pressed` attribute. */
  datatype ThemeState = ThemeState(dark: bool, store: map<string, string>, buttonText: string, pressed: string)

  /**
   * The page at start-up: dark exactly when the stored entry is `'1'`; only then, and only if the
   * button exists, are its label and `aria-pressed` rewritten, otherwise they keep the page's own.
   * Storage is only read.
   */
  function Loaded(store: map<string, string>, hasButton: bool, buttonText: string, pressed: string): (t: ThemeState)
    ensures t.dark <==> StoredDark(store)
    ensures t.store == store
    ensures t.dark && hasButton ==> t.buttonText == DarkLabel && t.pressed == "true"
    ensures !(t.dark && hasButton) ==> t.buttonText == buttonText && t.pressed == pressed
  {
    var dark := StoredDark(store);
    if dark && hasButton then ThemeState(dark, store, LabelFor(true), PressedAttr(true))
    else ThemeState(dark, store, buttonText, pressed)
  }

  /**
   * The click handler: the mode flips, the new mode is stored under `modoOscuro` (no other entry
   * changes), and the button's attribute and label follow the new mode.
   */
  function Clicked(t: ThemeState): (r: ThemeState)
    ensures r.dark == !t.dark
    ensures StorageKey in r.store && r.store[StorageKey] == StoredFlag(r.dark)
    ensures forall k :: k != StorageKey ==> (k in r.store <==> k in t.store)
    ensures forall k :: k != StorageKey && k in t.store ==> r.store[k] == t.store[k]
    ensures r.pressed == PressedAttr(r.dark) && r.buttonText == LabelFor(r.dark)
  {
    var dark := !t.dark;
    ThemeState(dark, t.store[StorageKey := StoredFlag(dark)], LabelFor(dark), PressedAttr(dark))
  }

  /** Storage, label and attribute all agree with the mode. */
  predicate Consistent(t: ThemeState) {
    && StorageKey in t.store && t.store[StorageKey] == StoredFlag(t.dark)
    && t.buttonText == LabelFor(t.dark)
    && t.pressed == PressedAttr(t.dark)
  }

  /** After any click, storage, label and attribute agree with the mode. */
  lemma ClickedConsistent(t: ThemeState)
    ensures Consistent(Clicked(t))
  {
  }

  /** A reload after a click starts in the mode that click chose. */
  lemma ReloadKeepsMode(t: ThemeState, hasButton: bool, buttonText: string, pressed: string)
    ensures Loaded(Clicked(t).store, hasButton, buttonText, pressed).dark == Clicked(t).dark
  {
  }

  /**
   * Two clicks restore the mode; from a consistent state (any state reached by a click) they also
   * restore the storage, the label and the attribute.
   */
  lemma ClickTwice(t: ThemeState)
    ensures Clicked(Clicked(t)).dark == t.dark
    ensures Consistent(t) ==> Clicked(Clicked(t)) == t
  {
  }

  /** The mode toggle as the page runs it. */
  class ThemeToggle {
    var dark: bool
    var store: map<string, string>
    const hasButton: bool
    var buttonText: string
    var pressed: string

    function State(): ThemeState
      reads this
    {
      ThemeState(dark, store, buttonText, pressed)
    }

    /** The start-up; `buttonText` and `pressed` are the label and attribute the page's markup gives the button. */
    constructor (store: map<string, string>, hasButton: bool, buttonText: string, pressed: string)
      ensures State() == Loaded(store, hasButton, buttonText, pressed)
      ensures this.hasButton == hasButton
    {
      this.hasButton := hasButton;
      this.store := store;
      this.buttonText := buttonText;
      this.pressed := pressed;
      dark := false;
      if StoredDark(store) {
        dark := true;
        if hasButton {
          this.buttonText := LabelFor(true);
          this.pressed := PressedAttr(true);
        }
      }
    }

    /** A click on the button; the listener exists only when the page has the button. */
    method Click()
      requires hasButton
      modifies this
      ensures State() == Clicked(old(State()))
    {
      dark := !dark;
      store := store[StorageKey := StoredFlag(dark)];
      pressed := PressedAttr(dark);
      buttonText := LabelFor(dark);
    }
  }
}

=== FILE: wrappers.dfy ===
/** A value that may be absent: the model of JavaScript's `null` where the page uses it. */
module Wrappers {
  datatype Option<+T> = None | Some(value: T)
}
